=== FILE: README.md ===
# Raymarching visualiser: momentum, preloading, scene wiring and the screen frame

A Dafny model of the logic at the heart of a three.js raymarching visualiser.
It covers four parts:

- **`Scroll`** (`scroll.dfy`) is the pointer/wheel momentum engine. Every
  listener and the per-frame `update` is a pure step from the engine's state
  (`_lastTouch`, `_useMomentum`, `_touchMomentum`, `_isTouching`, the bound
  element) to its next state and the `{x, y}` events it dispatches, in order.
- **`Preloader`** (`preloader.dfy`) is completion accounting for image, video
  and 3D-model loads. The asynchronous callbacks are an interleaving of
  resolution steps chosen by the environment, applied to a multiset of loads
  in flight. A video keeps its `oncanplay` handler after it first fires, so
  `canplay` may be delivered again for it, and is counted again.
  `mediaItems` is a map keyed by `src`.
- **`VisualiserScene`** (`visualiser_scene.dfy`) is the scene that owns six
  children and one `RaymarchSettings` record. Calls on children whose code is
  not part of this model are recorded in a call trace. The screen frame's
  own behaviour is applied.
- **`ScreenFrame`** (`screen_frame.dfy`) is the glass plane whose position and
  yaw are re-derived from the shared settings on every update.

Three support modules are shared:

- `Geometry` (`geometry.dfy`) holds vectors, `Math.sign`, `Math.PI` and the
  x-component of `normalize`.
- `Maybe` (`maybe.dfy`) holds the optional value used for nullable references.
- `RaymarchSettings` (`settings.dfy`) holds the settings record
  and the heap of settings objects. A `Ref` into the heap is the object
  identity of the source, so handing a reference is sharing, never copying.

Numbers are exact reals. Three things from the numeric runtime are modelled as
follows:

- `Math.pow(MOMENTUM_DAMPING, t)` is the function `dampingPow` of a `Motion`
  parameter, and `MOMENTUM_CARRY` is its `carry`.
- `Math.sqrt` of a length is a `len` argument constrained by `IsLength`
  (`len >= 0`, `len * len` the squared length).
- `Math.PI` is the decimal 3.141592653589793.

Two places where the code is followed to the letter:

- The decay exponent in `update` divides `time` by `1000 / time`: it is
  computed from the frame's `time`, not from a per-frame delta, and is then
  clamped into `[1, 4]`.
- three.js `normalize` divides by `length() || 1`. So when the ray origin sits
  on the target, the frame's yaw is set to 0; the rotation is not left as it
  was (`ScreenFrame.DegenerateViewHasNoYaw`).

## Model

| member | source | states |
|---|---|---|
| Scroll.ApplyScrollXY | src/utils/singletons/Scroll.ts:24-38 | each scroll kind is dispatched as its own event type (`mouse`, `touch`, `wheel`) carrying exactly the given x and y |
| Scroll.OnTouchDown | src/utils/singletons/Scroll.ts:40-46 | pressing sets touching, stops momentum, records the pointer position as the last position, keeps the momentum vector and emits exactly one `touchdown` |
| Scroll.OnTouchMove | src/utils/singletons/Scroll.ts:48-71 | a move while not touching changes nothing and emits nothing; while touching, the delta from the last position is carried into the momentum per axis, the new position becomes the last one, and one event with the raw delta is emitted, `touch` for touch input and `mouse` otherwise |
| Scroll.OnTouchUp | src/utils/singletons/Scroll.ts:73-77 | releasing clears touching, starts momentum, keeps the momentum vector and last position, and emits one `touchup` |
| Scroll.OnWheel | src/utils/singletons/Scroll.ts:79-89 | the wheel stops momentum, leaves every other field alone, and emits one `wheel` event with x = 0 and y = -pixelY |
| Scroll.OnResize | src/utils/singletons/Scroll.ts:91-93 | a resize only stops momentum and emits nothing |
| Scroll.TimeFactor | src/utils/singletons/Scroll.ts:135 | the decay exponent always lies in [1, 4]: it is 1 when the ratio is below 1 (time 0 included, where JavaScript's ratio is 0), 4 when the ratio is above 4, and the ratio itself in between |
| Scroll.LateFramesClampToFour | src/utils/singletons/Scroll.ts:135 | since the ratio is time squared over 1000, every frame time of 64 or more gives the ceiling exponent 4 |
| Scroll.Update | src/utils/singletons/Scroll.ts:129-154 | with momentum off a frame is a no-op; with it on both axes are scaled by the damping factor at an exponent in [1, 4], and then an x `touch` event (y = 0) is emitted iff the decayed x has magnitude at least 0.01, followed by a y `touch` event (x = 0) iff the decayed y does |
| Scroll.SetTargetElement | src/utils/singletons/Scroll.ts:156-160 | only the first element is bound, and binding stops momentum as `_onResize` does; once bound, further calls change nothing |
| Scroll.SetTargetOnce | src/utils/singletons/Scroll.ts:156-160 | binding a second element after a first leaves the engine exactly as it was |
| Scroll.StepPreservesInv | src/utils/singletons/Scroll.ts:40-93 | no single input can leave momentum running while the pointer is down |
| Scroll.RunPreservesInv | src/utils/singletons/Scroll.ts:40-160 | over any sequence of inputs, momentum never runs while the pointer is down |
| Scroll.DragTelescopes | src/utils/singletons/Scroll.ts:53-70 | during a drag the emitted raw deltas sum to the pointer's total displacement on each axis, one event per move, and the last position is the final point |
| Scroll.DragFolds | src/utils/singletons/Scroll.ts:62-66 | a drag's momentum on each axis is the move-by-move carry fold of its positions |
| Scroll.FoldCarryClosedForm | src/utils/singletons/Scroll.ts:62-66 | after n moves the momentum is the earlier momentum times carry^n plus every raw delta weighted by carry to the number of moves that followed it |
| Scroll.CarryExample | src/utils/singletons/Scroll.ts:56-66 | with carry 0.9, moves by 10 and then 5 from rest leave momentum 14 |
| Scroll.DecayNeverGrows | src/utils/singletons/Scroll.ts:135-137 | when the damping factor lies in [0, 1], a frame never increases the magnitude of either momentum axis |
| Scroll.FramesNeverGrow | src/utils/singletons/Scroll.ts:129-154 | under such damping, any sequence of frames never increases either momentum axis, so an axis that has fallen silent stays silent |
| Preloader.OrOne | src/sections/Visualiser/classes/utility/Preloader.ts:35-36 | a zero dimension becomes 1 and any non-zero dimension is kept, so the result is never 0 |
| Preloader.OnLoadingComplete | src/sections/Visualiser/classes/utility/Preloader.ts:94-96 | completing dispatches exactly one `loaded` and changes no state |
| Preloader.OnAssetLoaded | src/sections/Visualiser/classes/utility/Preloader.ts:84-92 | each resolution increments the counter by exactly one, and `loaded` is dispatched, once, iff the counter then equals the item count |
| Preloader.StartLoads | src/sections/Visualiser/classes/utility/Preloader.ts:21-81 | visiting the entries counts every null entry at once, puts every non-null entry in flight, leaves the item list and `mediaItems` alone, and dispatches `loaded` iff the null entries carry the counter up to the item count |
| Preloader.PreloadTextures | src/sections/Visualiser/classes/utility/Preloader.ts:17-82 | an empty list dispatches `loaded` exactly once and nothing else; otherwise every null entry is counted at once and every other entry goes in flight, `mediaItems` is kept, and `loaded` is dispatched at most once, exactly when the null entries carry the counter up to the list length |
| Preloader.SetPreloadItems | src/sections/Visualiser/classes/utility/Preloader.ts:98-101 | the list is replaced without resetting the counter; an empty list dispatches `loaded` exactly once before returning, and a non-empty one does so iff its null entries complete the count |
| Preloader.Resolve | src/sections/Visualiser/classes/utility/Preloader.ts:30-78 | a callback for a load in flight removes it from flight, counts exactly one, and dispatches `loaded` iff that completes the count; a repeated `canplay` of a video already loaded counts exactly one again with the same dispatch rule; any other callback cannot occur and changes nothing; the counter never decreases |
| Preloader.ResolveStores | src/sections/Visualiser/classes/utility/Preloader.ts:33-68 | a success stores the item's handle under its `src` with non-zero dimensions (the reported ones, or 1 where a reported one is zero) and keeps every other entry; a failed model load stores nothing |
| Preloader.ResolveKeepsDimsNonZero | src/sections/Visualiser/classes/utility/Preloader.ts:33-68 | no callback ever stores a zero width or height |
| Preloader.RunCounts | src/sections/Visualiser/classes/utility/Preloader.ts:84-92 | over any order of callbacks for loads in flight, the counter rises by exactly the number of callbacks and `loaded` fires once, on the callback that finishes the last load in flight, and never earlier |
| Preloader.LoadedExactlyOnce | src/sections/Visualiser/classes/utility/Preloader.ts:17-101 | a fresh preloader given any list whose non-null items each resolve once, in any order, dispatches `loaded` exactly once in total, and its counter ends at the list length |
| Preloader.CanPlayAgainLoadsEarly | src/sections/Visualiser/classes/utility/Preloader.ts:51-59 | with a video and an image in the list, a second `canplay` of the video completes the count, so `loaded` is dispatched while the image is still loading |
| Preloader.StaleCounterNeverLoads | src/sections/Visualiser/classes/utility/Preloader.ts:84-92 | once the counter has reached the item count, no later callback dispatches `loaded` and the counter never goes down |
| Preloader.ReuseNeverLoads | src/sections/Visualiser/classes/utility/Preloader.ts:98-101 | reusing a preloader whose counter already reaches the new non-empty list's length never dispatches `loaded` for that list |
| Preloader.RunKeepsDimsNonZero | src/sections/Visualiser/classes/utility/Preloader.ts:33-68 | over any sequence of callbacks every stored entry keeps non-zero dimensions and the counter never goes down |
| ScreenFrame.New | src/sections/Visualiser/classes/Components/ScreenFrame3D.ts:15-40 | a new frame has its mesh attached, nothing disposed and no settings reference |
| ScreenFrame.Update | src/sections/Visualiser/classes/Components/ScreenFrame3D.ts:42-73 | without a settings reference the frame is unchanged; with one, the mesh sits at (ro.x, ro.y, -ro.z - zoom) of the current settings, the yaw lies within a quarter turn, and the x and z rotation and everything but the mesh are left alone |
| ScreenFrame.Yaw | src/sections/Visualiser/classes/Components/ScreenFrame3D.ts:52-70 | the yaw always lies in [-pi/2, pi/2] |
| ScreenFrame.YawSign | src/sections/Visualiser/classes/Components/ScreenFrame3D.ts:65-70 | the yaw is positive exactly when the view direction's x and the origin's z offset from the target share a strict sign, and negative exactly when they have opposite strict signs |
| ScreenFrame.DegenerateViewHasNoYaw | src/sections/Visualiser/classes/Components/ScreenFrame3D.ts:55-58 | when the ray origin sits on the target, the view has length 0 and the yaw is 0 |
| ScreenFrame.UpdateIdempotent | src/sections/Visualiser/classes/Components/ScreenFrame3D.ts:42-73 | a second update against unchanged settings gives the same frame as the first |
| ScreenFrame.SetSettingsRef | src/sections/Visualiser/classes/Components/ScreenFrame3D.ts:84-87 | the frame keeps the given reference and nothing else about it changes |
| ScreenFrame.UpdateSeesCurrentSettings | src/sections/Visualiser/classes/Components/ScreenFrame3D.ts:84-85 | because a reference is kept, whatever the referenced record holds when `update` runs is what the mesh shows |
| ScreenFrame.Destroy | src/sections/Visualiser/classes/Components/ScreenFrame3D.ts:75-82 | destroying disposes the geometry and the material once more and detaches the mesh, leaving its transform and reference alone |
| VisualiserScene.InitialSettings | src/sections/Visualiser/classes/Scenes/VisualiserScene.ts:28-35 | the initial record is valid (origin differs from target, zoom not negative), and the origin is off the target's z plane |
| VisualiserScene.New | src/sections/Visualiser/classes/Scenes/VisualiserScene.ts:37-59 | construction lists the six children in field order and stores one new settings record; its trace is the six `add` calls, then `setElPosition` of the light, sphere 1 and sphere 2 with their initial values, then the reference, not a copy, handed to the computed screen and then the frame; the camera is left where it was |
| VisualiserScene.AddChild | src/sections/Visualiser/classes/Scenes/VisualiserScene.ts:42-47 | the added child ends up last, behind the list `remove` leaves without it (so a child not yet present is simply appended) |
| VisualiserScene.AddedInOrder | src/sections/Visualiser/classes/Scenes/VisualiserScene.ts:42-47 | the six `add` calls on an empty scene list the children in the order added |
| VisualiserScene.RemoveChild | src/sections/Visualiser/classes/Scenes/VisualiserScene.ts:94-112 | removing a child drops one occurrence of it from the child list and nothing else, and removing an absent child changes nothing |
| VisualiserScene.RemoveSplices | src/sections/Visualiser/classes/Scenes/VisualiserScene.ts:94-112 | the occurrence `remove` drops is the first one, and the children before and after it keep their order |
| VisualiserScene.MoveCamera | src/sections/Visualiser/classes/Scenes/VisualiserScene.ts:61-66 | the camera moves to (ro.x, ro.y, -ro.z) of the scene's settings and nothing else in the scene changes |
| VisualiserScene.Update | src/sections/Visualiser/classes/Scenes/VisualiserScene.ts:77-92 | the base update comes first, then floor, frame, computed screen, sphere 1, sphere 2 and light in that order, then `setElPosition(sphere1)` with the current value last; the scene after it differs from the one before only in the frame, updated from the shared settings, so no settings are written and the camera, children and settings reference stay |
| VisualiserScene.UpdateFollowsConstruction | src/sections/Visualiser/classes/Scenes/VisualiserScene.ts:42-85 | a constructed scene updates its children in exactly the order it added them |
| VisualiserScene.Destroy | src/sections/Visualiser/classes/Scenes/VisualiserScene.ts:94-112 | destroying makes, for each child in order, a destroy call followed by a remove call; afterwards none of the six is a child of the scene and the frame has released its resources, while everything else is kept: neither the scene's nor the computed screen's settings reference is cleared, and the frame keeps its own |
| VisualiserScene.DestroyNoRepeat | src/sections/Visualiser/classes/Scenes/VisualiserScene.ts:94-112 | no child is destroyed twice or removed twice |
| VisualiserScene.DestroyThenRemove | src/sections/Visualiser/classes/Scenes/VisualiserScene.ts:94-112 | every one of the six children is destroyed and removed immediately after |
| VisualiserScene.SharedSettingsSeen | src/sections/Visualiser/classes/Scenes/VisualiserScene.ts:53-54 | the frame and the computed screen hold the scene's own record, so any later value of that record is what the frame's next update shows |
| VisualiserScene.FrameInFrontOfCamera | src/sections/Visualiser/classes/Scenes/VisualiserScene.ts:61-92 | once the camera is placed and the scene updated, the frame sits on the camera's x and y, `zoom` further along -z, with its yaw within a quarter turn |
| VisualiserScene.Lifecycle | src/sections/Visualiser/classes/Scenes/VisualiserScene.ts:28-112 | construct, place the camera, update and destroy: the camera is at (-8, 10, 8), the frame at (-8, 10, 5), the frame's geometry and material are disposed exactly once, its mesh is detached, and no child remains |

## Left out

- Listener binding and unbinding (`_addEvents`, `_removeEvents`, `Scroll.destroy`) is browser I/O and is not modelled. `SetTargetElement` keeps only the bound element and the `_onResize` call that binding makes.
- `normalizeWheel` is a foreign library; its `pixelY` is an input of the wheel step.
- Reading `touches[0]` versus `clientX`/`clientY` from a DOM event is not modelled. A pointer input carries its coordinates and whether it came from a touch.
- `MOMENTUM_CARRY` and `MOMENTUM_DAMPING` are defined in a shared-values file that is not part of this model. They are parameters (`Motion`), and `Math.pow` is the parameter `dampingPow`.
- Floating point is not modelled: numbers are exact reals, `Math.sqrt` is the `len` argument and `Math.PI` is an exact decimal. JavaScript's division by zero at time 0 is written out as the 0 it yields there.
- Creating images, videos, textures and GLTF scenes, `video.play()`, the progress callback and console logging are I/O. A load is modelled only by how it ends: the reported dimensions or, for models only, failure.
- The 50 ms timer before `_moveCamera`, `updateProjectionMatrix` and the orbit controls' `update` are timer and library side effects. Placing the camera is the explicit step `MoveCamera`.
- The base classes (`InteractiveScene`, `InteractiveObject3D`) are not part of this model. `InteractiveScene`'s `update` appears only as the `BaseUpdate` trace entry. The frame's calls to `InteractiveObject3D`'s `update` and `destroy` (ScreenFrame3D.ts lines 43 and 76) and the scene's `InteractiveScene` constructor call are not modelled.
- Listeners of the scroll engine are assumed not to read or re-enter the engine while an event is dispatched. `touchdown` goes out after touching is set but before momentum is stopped and the position recorded, and `touchup` before momentum is started; the model gives only the state once the handler returns.
- A 3D model whose scene has no children makes the success callback throw before it stores or counts anything. That exception is assumed to reach the loader's error callback, so such a load is a `Failed` step: counted, with no entry stored. Whether it does depends on the loader's version, which is not part of this model; if the loader drops the exception instead, the load is a step that is never delivered, and `RunCounts` then gives no `loaded`.
- The floor, computed screen, spheres and light are not part of this model. Their `update`, `destroy`, `setElPosition` and settings calls appear only as trace entries.
- Material parameters and the plane's size are rendering detail.
- Preloader.LoadedExactlyOnce: holds only when each load's callback fires once. A video's `canplay` can fire again, and each repeat counts, so the dispatch can come early (`CanPlayAgainLoadsEarly`). `RunCounts` carries the same assumption: its callbacks are drawn from the loads in flight.
- VisualiserScene.Destroy: the child list is proved empty afterwards only for lists without repeats. The scene's own list never has repeats, because three.js `add` detaches a child before appending it; `Lifecycle` proves it empty for a constructed scene.
- VisualiserScene.New: the child list is stated as the six children in order. That this is what the six `add` calls produce is proved separately by `AddedInOrder`.
- ScreenFrame.YawSign: stated only for a view of non-zero length. The zero-length case, where the yaw is 0, is `DegenerateViewHasNoYaw`.

=== FILE: geometry.dfy ===
/** The small slice of three.js vector math the visualiser relies on, over exact reals. */
module Geometry {

  /** A three.js `Vector3`, as a value. */
  datatype Vec3 = Vec3(x: real, y: real, z: real)

  /** JavaScript's `Math.PI`, as the shortest decimal that rounds to it (the double itself is not this exact value). */
  const Pi: real := 3.141592653589793

  /** `a - b`, component-wise (three.js `copy(a).sub(b)`). */
  function Sub(a: Vec3, b: Vec3): Vec3
  {
    Vec3(a.x - b.x, a.y - b.y, a.z - b.z)
  }

  /** The squared Euclidean length of `v` (three.js `lengthSq`). */
  function LengthSq(v: Vec3): (r: real)
    ensures r >= 0.0
    ensures r >= v.x * v.x
  {
    v.x * v.x + v.y * v.y + v.z * v.z
  }

  /** `len` is what `Math.sqrt` returns for the length of `v`. */
  predicate IsLength(v: Vec3, len: real)
  {
    len >= 0.0 && len * len == LengthSq(v)
  }

  /**
   * The x-component of three.js `v.normalize()`, given the length of `v`:
   * normalize divides by `length() || 1`, so the zero vector stays zero.
   */
  function NormalizedX(v: Vec3, len: real): (r: real)
    requires IsLength(v, len)
    ensures -1.0 <= r <= 1.0
    ensures len == 0.0 ==> r == 0.0
    ensures len != 0.0 ==> r * len == v.x
  {
    if len == 0.0 then 0.0
    else
      UnitBound(v, len);
      v.x / len
  }

  /** One coordinate of a vector, divided by the vector's length, lies in `[-1, 1]`. */
  lemma UnitBound(v: Vec3, len: real)
    requires IsLength(v, len) && len != 0.0
    ensures -1.0 <= v.x / len <= 1.0
  {
    assert len > 0.0;
    assert v.x * v.x <= len * len;
    if v.x > len {
      assert v.x * v.x > len * v.x > len * len;
    }
    if v.x < -len {
      assert v.x * v.x > -len * v.x > len * len;
    }
    DivideBounded(v.x, len);
  }

  /** Dividing a value in `[-d, d]` by `d > 0` lands in `[-1, 1]`. */
  lemma DivideBounded(a: real, d: real)
    requires d > 0.0 && -d <= a <= d
    ensures -1.0 <= a / d <= 1.0
  {
    var q := a / d;
    assert (1.0 - q) * d == d - a;
    assert (1.0 + q) * d == d + a;
  }

  /** JavaScript's `Math.sign` on a (non-NaN) number. */
  function Sign(r: real): (s: real)
    ensures s == -1.0 || s == 0.0 || s == 1.0
    ensures s * r >= 0.0
    ensures s == 0.0 <==> r == 0.0
  {
    if r > 0.0 then 1.0 else if r < 0.0 then -1.0 else 0.0
  }
}

=== FILE: maybe.dfy ===
/** The optional value used wherever the source holds a nullable reference. */
module Maybe {
  datatype Option<+T> = None | Some(value: T)
}

=== FILE: preloader.dfy ===
/**
 * The `Preloader`: loads a list of images, videos and 3D models, counts every
 * resolution (success, failure or null entry alike) and dispatches `loaded`
 * when the count reaches the number of items. The asynchronous loads are
 * modelled as an interleaving, chosen by the environment, of resolution steps.
 */
module Preloader {
  import opened Maybe

  datatype MediaKind = Image | Video | Model

  /** One entry of the item list: its `type` and `src`. */
  datatype PreloadItem = PreloadItem(kind: MediaKind, src: string)

  /** The handle a finished load stores: a texture, a video texture or a model's scene. */
  datatype Resource = Texture(src: string) | VideoTexture(src: string) | ModelScene(src: string)

  /** One `mediaItems` entry. */
  datatype MediaItem = MediaItem(item: Resource, naturalWidth: real, naturalHeight: real)

  /**
   * How one load ends: with the dimensions the browser or the model reports
   * (image or video size, scale of the model's first child), or with failure.
   * A model whose scene has no first child is assumed to fail too: reading its
   * scale throws inside the success callback, and the exception is assumed to
   * reach the loader's error callback. A loader that drops it instead never
   * delivers a step for that load.
   */
  datatype Outcome = Succeeded(width: real, height: real) | Failed

  /** The environment finishing the load of `item` with `outcome`. */
  datatype Resolution = Resolution(item: PreloadItem, outcome: Outcome)

  /**
   * `_assetsLoaded`, `_items`, `mediaItems`, the loads started but not yet
   * finished (several loads of the same item may be in flight), and the video
   * items whose element was created: a video keeps its `oncanplay` handler, so
   * `canplay` can fire for it again after the first time.
   */
  datatype Preloader = Preloader(
    assetsLoaded: nat,
    items: seq<Option<PreloadItem>>,
    mediaItems: map<string, MediaItem>,
    pending: multiset<PreloadItem>,
    videos: set<PreloadItem>)

  /** A new state and how many times `loaded` was dispatched reaching it. */
  datatype Reaction = Reaction(state: Preloader, loaded: nat)

  /** The field initialisers of the class. */
  const Init: Preloader := Preloader(0, [], map[], multiset{}, {})

  /** JavaScript's `v || 1` on a number: a zero dimension falls back to 1. */
  function OrOne(v: real): (r: real)
    ensures r != 0.0
    ensures v == 0.0 ==> r == 1.0
    ensures v != 0.0 ==> r == v
  {
    if v == 0.0 then 1.0 else v
  }

  /** The number of null entries. */
  function NullCount(items: seq<Option<PreloadItem>>): (n: nat)
    ensures n <= |items|
  {
    if |items| == 0 then 0
    else (if items[0].None? then 1 else 0) + NullCount(items[1..])
  }

  /** The non-null entries, as a multiset. */
  function NonNull(items: seq<Option<PreloadItem>>): multiset<PreloadItem>
  {
    if |items| == 0 then multiset{}
    else (if items[0].Some? then multiset{items[0].value} else multiset{}) + NonNull(items[1..])
  }

  /** Every entry is either null or non-null. */
  lemma {:induction false} NullsAndItems(items: seq<Option<PreloadItem>>)
    ensures NullCount(items) + |NonNull(items)| == |items|
  {
    if |items| > 0 {
      NullsAndItems(items[1..]);
    }
  }

  /** `_onLoadingComplete`: dispatch `loaded`. */
  function OnLoadingComplete(p: Preloader): (r: Reaction)
    ensures r.state == p && r.loaded == 1
  {
    Reaction(p, 1)
  }

  /** `_onAssetLoaded`: count one resolution; dispatch `loaded` iff the count now equals the item count. */
  function OnAssetLoaded(p: Preloader): (r: Reaction)
    ensures r.state == p.(assetsLoaded := p.assetsLoaded + 1)
    ensures r.loaded <= 1
    ensures r.loaded == 1 <==> p.assetsLoaded + 1 == |p.items|
  {
    var count := p.assetsLoaded + 1;
    var p' := p.(assetsLoaded := count);
    if count == |p.items| then OnLoadingComplete(p') else Reaction(p', 0)
  }

  /** The video items among `items`. */
  function VideosIn(items: multiset<PreloadItem>): (vs: set<PreloadItem>)
    ensures forall v :: v in vs <==> v in items && v.kind == Video
  {
    set v | v in items && v.kind == Video
  }

  /** Start one load: it is in flight, and a video's element now exists. */
  function StartLoad(p: Preloader, item: PreloadItem): (r: Reaction)
    ensures r.loaded == 0
    ensures r.state == p.(pending := p.pending + multiset{item}, videos := p.videos + VideosIn(multiset{item}))
  {
    var videos := if item.kind == Video then p.videos + {item} else p.videos;
    Reaction(p.(pending := p.pending + multiset{item}, videos := videos), 0)
  }

  /**
   * The `forEach` of `_preloadTextures` over the entries still to visit: a
   * null entry counts as resolved on the spot; any other entry starts a load.
   */
  function StartLoads(p: Preloader, rest: seq<Option<PreloadItem>>): (r: Reaction)
    ensures r.state.assetsLoaded == p.assetsLoaded + NullCount(rest)
    ensures r.state.pending == p.pending + NonNull(rest)
    ensures r.state.items == p.items && r.state.mediaItems == p.mediaItems
    ensures r.state.videos == p.videos + VideosIn(NonNull(rest))
    ensures r.loaded == (if p.assetsLoaded < |p.items| <= p.assetsLoaded + NullCount(rest) then 1 else 0)
    decreases |rest|
  {
    if |rest| == 0 then Reaction(p, 0)
    else
      var first :=
        if rest[0].None? then OnAssetLoaded(p)
        else StartLoad(p, rest[0].value);
      var more := StartLoads(first.state, rest[1..]);
      Reaction(more.state, first.loaded + more.loaded)
  }

  /** `_preloadTextures`: an empty list completes at once; otherwise every entry is visited. */
  function PreloadTextures(p: Preloader): (r: Reaction)
    ensures r.state.items == p.items && r.state.mediaItems == p.mediaItems
    ensures r.state.assetsLoaded == p.assetsLoaded + NullCount(p.items)
    ensures r.state.pending == p.pending + NonNull(p.items)
    ensures r.state.videos == p.videos + VideosIn(NonNull(p.items))
    ensures r.loaded <= 1
    ensures |p.items| == 0 ==> r.loaded == 1
    ensures |p.items| > 0 ==>
      (r.loaded == 1 <==> p.assetsLoaded < |p.items| <= p.assetsLoaded + NullCount(p.items))
  {
    if |p.items| == 0 then OnLoadingComplete(p)
    else StartLoads(p, p.items)
  }

  /**
   * `setPreloadItems`: replace the list (the counter is not reset) and start
   * processing. `loaded` is dispatched before it returns, at most once, exactly
   * when the list is empty or the null entries bring the count to the list length.
   */
  function SetPreloadItems(p: Preloader, items: seq<Option<PreloadItem>>): (r: Reaction)
    ensures r.state.items == items
    ensures r.state.assetsLoaded == p.assetsLoaded + NullCount(items)
    ensures r.state.pending == p.pending + NonNull(items)
    ensures r.state.mediaItems == p.mediaItems
    ensures r.state.videos == p.videos + VideosIn(NonNull(items))
    ensures r.loaded <= 1
    ensures |items| == 0 ==> r.loaded == 1
    ensures |items| > 0 ==>
      (r.loaded == 1 <==> p.assetsLoaded < |items| <= p.assetsLoaded + NullCount(items))
  {
    PreloadTextures(p.(items := items))
  }

  /** Whether a load of this kind can end this way: only model loads have a failure callback. */
  predicate Possible(item: PreloadItem, outcome: Outcome)
  {
    outcome.Succeeded? || item.kind == Model
  }

  /** The handle stored for a successful load. */
  function ResourceOf(item: PreloadItem): Resource
  {
    match item.kind
    case Image => Texture(item.src)
    case Video => VideoTexture(item.src)
    case Model => ModelScene(item.src)
  }

  /** No stored entry has a zero width or height. */
  predicate DimsNonZero(media: map<string, MediaItem>)
  {
    forall src <- media :: media[src].naturalWidth != 0.0 && media[src].naturalHeight != 0.0
  }

  /**
   * A `canplay` for a video that is no longer loading: its element keeps the
   * `oncanplay` handler, and the event fires again whenever the element's
   * ready state climbs back (after a stall, or the seek of a looping video).
   */
  predicate CanPlayAgain(p: Preloader, res: Resolution)
  {
    res.item !in p.pending && res.item in p.videos && res.outcome.Succeeded?
  }

  /**
   * One load callback: `onload` / `oncanplay` / the model's success callback
   * store an entry keyed by the item's `src` (zero dimensions become 1) and
   * count the item; the model's error callback only counts it. A video's
   * `oncanplay` does both again each time it fires once more. Any other
   * callback for a load that is not in flight, or a failure where no error
   * callback exists, cannot happen and changes nothing.
   */
  function Resolve(p: Preloader, res: Resolution): (r: Reaction)
    ensures !(res.item in p.pending && Possible(res.item, res.outcome)) && !CanPlayAgain(p, res) ==>
      r == Reaction(p, 0)
    ensures res.item in p.pending && Possible(res.item, res.outcome) ==>
      && r.state.assetsLoaded == p.assetsLoaded + 1
      && r.state.items == p.items
      && r.state.pending == p.pending - multiset{res.item}
      && r.state.videos == p.videos
      && (r.loaded == 1 <==> p.assetsLoaded + 1 == |p.items|)
    ensures CanPlayAgain(p, res) ==>
      && r.state.assetsLoaded == p.assetsLoaded + 1
      && r.state.items == p.items
      && r.state.pending == p.pending
      && r.state.videos == p.videos
      && (r.loaded == 1 <==> p.assetsLoaded + 1 == |p.items|)
    ensures r.loaded <= 1
    ensures r.state.assetsLoaded >= p.assetsLoaded
  {
    var item := res.item;
    var inFlight := item in p.pending && Possible(item, res.outcome);
    if !inFlight && !CanPlayAgain(p, res) then Reaction(p, 0)
    else
      var p1 := if inFlight then p.(pending := p.pending - multiset{item}) else p;
      var p2 :=
        match res.outcome
        case Succeeded(w, h) =>
          p1.(mediaItems := p1.mediaItems[item.src := MediaItem(ResourceOf(item), OrOne(w), OrOne(h))])
        case Failed => p1;
      OnAssetLoaded(p2)
  }

  /**
   * What a callback does to `mediaItems`: a success stores the item's handle
   * under its `src` with non-zero dimensions (the reported ones unless zero)
   * and keeps every other entry; a failure stores nothing.
   */
  lemma ResolveStores(p: Preloader, res: Resolution)
    requires (res.item in p.pending && Possible(res.item, res.outcome)) || CanPlayAgain(p, res)
    ensures var media := Resolve(p, res).state.mediaItems;
      && (res.outcome.Failed? ==> media == p.mediaItems)
      && (res.outcome.Succeeded? ==>
        && media.Keys == p.mediaItems.Keys + {res.item.src}
        && media[res.item.src].item == ResourceOf(res.item)
        && media[res.item.src].naturalWidth != 0.0
        && media[res.item.src].naturalHeight != 0.0
        && (res.outcome.width != 0.0 ==> media[res.item.src].naturalWidth == res.outcome.width)
        && (res.outcome.width == 0.0 ==> media[res.item.src].naturalWidth == 1.0)
        && (res.outcome.height != 0.0 ==> media[res.item.src].naturalHeight == res.outcome.height)
        && (res.outcome.height == 0.0 ==> media[res.item.src].naturalHeight == 1.0)
        && (forall src <- p.mediaItems :: src != res.item.src ==> media[src] == p.mediaItems[src]))
  {
  }

  /** No callback ever stores a zero width or height. */
  lemma ResolveKeepsDimsNonZero(p: Preloader, res: Resolution)
    requires DimsNonZero(p.mediaItems)
    ensures DimsNonZero(Resolve(p, res).state.mediaItems)
  {
  }

  /** A sequence of load callbacks, in the order the environment delivers them. */
  function Run(p: Preloader, steps: seq<Resolution>): Reaction
    decreases |steps|
  {
    if |steps| == 0 then Reaction(p, 0)
    else
      var first := Resolve(p, steps[0]);
      var rest := Run(first.state, steps[1..]);
      Reaction(rest.state, first.loaded + rest.loaded)
  }

  function ItemsOf(steps: seq<Resolution>): (items: seq<PreloadItem>)
    ensures |items| == |steps|
    ensures forall i :: 0 <= i < |steps| ==> items[i] == steps[i].item
  {
    seq(|steps|, i requires 0 <= i < |steps| => steps[i].item)
  }

  /** Every step is one a real callback could take. */
  predicate AllPossible(steps: seq<Resolution>)
  {
    forall i :: 0 <= i < |steps| ==> Possible(steps[i].item, steps[i].outcome)
  }

  /** The counter agrees with the loads still in flight. */
  predicate Accounted(p: Preloader)
  {
    p.assetsLoaded + |p.pending| == |p.items|
  }

  lemma ItemsOfSplit(steps: seq<Resolution>)
    requires |steps| > 0
    ensures multiset(ItemsOf(steps)) == multiset{steps[0].item} + multiset(ItemsOf(steps[1..]))
  {
    assert ItemsOf(steps) == [steps[0].item] + ItemsOf(steps[1..]);
  }

  /**
   * Completion accounting over any interleaving: each callback of a load in
   * flight counts exactly one, and `loaded` is dispatched once, by the callback
   * that finishes the last load in flight, and never before it.
   */
  lemma {:induction false} RunCounts(p: Preloader, steps: seq<Resolution>)
    requires Accounted(p)
    requires multiset(ItemsOf(steps)) <= p.pending
    requires AllPossible(steps)
    ensures
      var r := Run(p, steps);
      && r.state.assetsLoaded == p.assetsLoaded + |steps|
      && r.state.items == p.items
      && r.state.pending == p.pending - multiset(ItemsOf(steps))
      && r.loaded == (if |steps| > 0 && |steps| == |p.pending| then 1 else 0)
    decreases |steps|
  {
    if |steps| > 0 {
      var first := Resolve(p, steps[0]);
      FirstCallback(p, steps);
      RunCounts(first.state, steps[1..]);
      var after := Run(first.state, steps[1..]);
      assert Run(p, steps) == Reaction(after.state, first.loaded + after.loaded);
      LoadedOnLast(|p.pending|, |steps|, first.loaded, after.loaded);
    }
  }

  /** The first callback of a run of loads in flight, and what it leaves for the rest. */
  lemma FirstCallback(p: Preloader, steps: seq<Resolution>)
    requires Accounted(p)
    requires multiset(ItemsOf(steps)) <= p.pending
    requires AllPossible(steps) && |steps| > 0
    ensures
      var first := Resolve(p, steps[0]);
      var rest := steps[1..];
      && Accounted(first.state)
      && first.state.items == p.items
      && first.state.assetsLoaded == p.assetsLoaded + 1
      && first.loaded == (if |p.pending| == 1 then 1 else 0)
      && multiset(ItemsOf(rest)) <= first.state.pending
      && first.state.pending - multiset(ItemsOf(rest)) == p.pending - multiset(ItemsOf(steps))
      && AllPossible(rest)
      && |steps| <= |p.pending|
  {
    PendingAfterFirst(p.pending, steps);
    PossibleTail(steps);
  }

  lemma PendingAfterFirst(pending: multiset<PreloadItem>, steps: seq<Resolution>)
    requires multiset(ItemsOf(steps)) <= pending && |steps| > 0
    ensures steps[0].item in pending
    ensures var left := pending - multiset{steps[0].item};
      && multiset(ItemsOf(steps[1..])) <= left
      && left - multiset(ItemsOf(steps[1..])) == pending - multiset(ItemsOf(steps))
    ensures |steps| <= |pending|
  {
    ItemsOfSplit(steps);
    var taken := multiset(ItemsOf(steps));
    assert |taken| == |steps|;
    assert pending == taken + (pending - taken);
  }

  lemma PossibleTail(steps: seq<Resolution>)
    requires AllPossible(steps) && |steps| > 0
    ensures AllPossible(steps[1..])
  {
    var rest := steps[1..];
    forall i | 0 <= i < |rest|
      ensures Possible(rest[i].item, rest[i].outcome)
    {
      assert rest[i] == steps[i + 1];
    }
  }

  /** The arithmetic of the last step: the first callback fires iff it was the last in flight. */
  lemma LoadedOnLast(inFlight: nat, steps: nat, first: nat, rest: nat)
    requires 0 < steps <= inFlight
    requires first == (if inFlight == 1 then 1 else 0)
    requires rest == (if steps - 1 > 0 && steps - 1 == inFlight - 1 then 1 else 0)
    ensures first + rest == (if steps == inFlight then 1 else 0)
  {
  }

  /**
   * `loaded` fires exactly once: a fresh preloader given any list, whose
   * non-null items then each resolve exactly once in any order, dispatches
   * `loaded` once in total, counting the dispatch inside `setPreloadItems`.
   * The counter ends equal to the list length.
   */
  lemma LoadedExactlyOnce(items: seq<Option<PreloadItem>>, steps: seq<Resolution>)
    requires multiset(ItemsOf(steps)) == NonNull(items)
    requires AllPossible(steps)
    ensures
      var started := SetPreloadItems(Init, items);
      var run := Run(started.state, steps);
      && started.loaded + run.loaded == 1
      && run.state.assetsLoaded == |items|
  {
    var started := SetPreloadItems(Init, items);
    NullsAndItems(items);
    RunCounts(started.state, steps);
    if |steps| == 0 {
      assert |NonNull(items)| == 0;
    }
  }

  /**
   * `LoadedExactlyOnce` needs every callback to fire once: a video whose
   * `canplay` fires a second time counts twice, so with a video and an image
   * in the list, `loaded` is dispatched while the image is still loading.
   */
  lemma CanPlayAgainLoadsEarly()
    ensures
      var video, image := PreloadItem(Video, "v"), PreloadItem(Image, "i");
      var started := SetPreloadItems(Init, [Some(video), Some(image)]);
      var canPlay := Resolution(video, Succeeded(1.0, 1.0));
      var run := Run(started.state, [canPlay, canPlay]);
      && started.loaded + run.loaded == 1
      && run.state.assetsLoaded == 2
      && image in run.state.pending
  {
    var video, image := PreloadItem(Video, "v"), PreloadItem(Image, "i");
    var items := [Some(video), Some(image)];
    var started := SetPreloadItems(Init, items);
    assert NonNull(items) == multiset{video, image} by {
      assert items[1..] == [Some(image)];
      assert items[1..][1..] == [];
      assert NonNull(items[1..]) == multiset{image} + NonNull(items[1..][1..]);
      assert NonNull(items) == multiset{video} + NonNull(items[1..]);
    }
    assert NullCount(items) == 0 by {
      assert items[1..] == [Some(image)];
      assert items[1..][1..] == [];
    }
    assert video in started.state.videos;
    var canPlay := Resolution(video, Succeeded(1.0, 1.0));
    var first := Resolve(started.state, canPlay);
    assert first.loaded == 0 && first.state.pending == multiset{image};
    assert CanPlayAgain(first.state, canPlay);
    var second := Resolve(first.state, canPlay);
    assert second.loaded == 1 && second.state.pending == multiset{image};
    assert [canPlay, canPlay][1..] == [canPlay];
    assert Run(second.state, [canPlay][1..]) == Reaction(second.state, 0);
  }

  /**
   * The counter is never reset: once it has reached the length of a new,
   * non-empty list, that list never dispatches `loaded`, whatever resolves.
   */
  lemma {:induction false} StaleCounterNeverLoads(p: Preloader, steps: seq<Resolution>)
    requires p.assetsLoaded >= |p.items|
    ensures Run(p, steps).loaded == 0
    ensures Run(p, steps).state.assetsLoaded >= p.assetsLoaded
    decreases |steps|
  {
    if |steps| > 0 {
      var first := Resolve(p, steps[0]);
      StaleCounterNeverLoads(first.state, steps[1..]);
    }
  }

  /** Reusing a preloader whose counter already reaches the new list's length dispatches nothing. */
  lemma ReuseNeverLoads(p: Preloader, items: seq<Option<PreloadItem>>, steps: seq<Resolution>)
    requires 0 < |items| <= p.assetsLoaded
    ensures SetPreloadItems(p, items).loaded == 0
    ensures Run(SetPreloadItems(p, items).state, steps).loaded == 0
  {
    StaleCounterNeverLoads(SetPreloadItems(p, items).state, steps);
  }

  /** Every entry ever stored keeps a non-zero width and height, whatever resolves. */
  lemma {:induction false} RunKeepsDimsNonZero(p: Preloader, steps: seq<Resolution>)
    requires DimsNonZero(p.mediaItems)
    ensures DimsNonZero(Run(p, steps).state.mediaItems)
    ensures Run(p, steps).state.assetsLoaded >= p.assetsLoaded
    decreases |steps|
  {
    if |steps| > 0 {
      ResolveKeepsDimsNonZero(p, steps[0]);
      RunKeepsDimsNonZero(Resolve(p, steps[0]).state, steps[1..]);
    }
  }
}

=== FILE: screen_frame.dfy ===
/**
 * `ScreenFrame3D`: a glass plane that follows the shader's implicit camera.
 * Every update re-derives the mesh transform from the settings object it
 * references, reading that object's current values.
 */
module ScreenFrame {
  import opened Geometry
  import opened Maybe
  import opened RaymarchSettings

  /** Position and Euler rotation of a three.js mesh. */
  datatype Transform = Transform(position: Vec3, rotation: Vec3)

  /**
   * The frame node: its mesh transform, whether the mesh is still a child of
   * the node, how often its geometry and material were disposed, and the
   * reference to the shared settings (`_raymarchSettingsRef`).
   */
  datatype Frame = Frame(
    mesh: Transform,
    meshAttached: bool,
    geometryDisposals: nat,
    materialDisposals: nat,
    settingsRef: Option<Ref>)

  const Origin: Vec3 := Vec3(0.0, 0.0, 0.0)

  /** The constructor: `_drawScreenFrame` builds geometry, material and mesh and adds the mesh. */
  function New(): (f: Frame)
    ensures f.meshAttached && f.settingsRef.None?
    ensures f.geometryDisposals == 0 && f.materialDisposals == 0
  {
    Frame(Transform(Origin, Origin), true, 0, 0, None)
  }

  /** The heap holds the referenced settings and `len` is the length of its view direction. */
  predicate CanUpdate(f: Frame, heap: Heap, len: real)
  {
    f.settingsRef.Some? ==>
      f.settingsRef.value in heap && IsLength(ViewDirection(heap[f.settingsRef.value]), len)
  }

  /** Where the frame sits: at the ray origin's x and y, `zoom` beyond the mirrored z. */
  function FramePosition(s: Settings): Vec3
  {
    Vec3(s.ro.x, s.ro.y, s.ro.z * -1.0 - s.zoom)
  }

  /** The yaw: right-axis component of the unit view direction, times pi/2, times the z side. */
  function Yaw(s: Settings, len: real): (yaw: real)
    requires IsLength(ViewDirection(s), len)
    ensures -Pi * 0.5 <= yaw <= Pi * 0.5
  {
    var dotR := NormalizedX(ViewDirection(s), len);
    var dotRSign := Sign(s.ro.z - s.lookAt.z);
    YawBound(dotR, dotRSign);
    dotR * Pi * 0.5 * dotRSign
  }

  lemma YawBound(dotR: real, sign: real)
    requires -1.0 <= dotR <= 1.0
    requires sign == -1.0 || sign == 0.0 || sign == 1.0
    ensures -Pi * 0.5 <= dotR * Pi * 0.5 * sign <= Pi * 0.5
  {
    assert -Pi * 0.5 <= dotR * Pi * 0.5 <= Pi * 0.5;
  }

  /**
   * `update`: without a settings reference nothing changes; with one, the
   * position and yaw are recomputed from the referenced record's current
   * values, while the x and z rotation and the settings themselves are left alone.
   */
  function Update(f: Frame, heap: Heap, len: real): (r: Frame)
    requires CanUpdate(f, heap, len)
    ensures f.settingsRef.None? ==> r == f
    ensures f.settingsRef.Some? ==>
      var s := heap[f.settingsRef.value];
      && r.mesh.position == Vec3(s.ro.x, s.ro.y, -s.ro.z - s.zoom)
      && r.mesh.rotation.x == f.mesh.rotation.x
      && r.mesh.rotation.z == f.mesh.rotation.z
      && -Pi / 2.0 <= r.mesh.rotation.y <= Pi / 2.0
    ensures r.(mesh := f.mesh) == f
  {
    match f.settingsRef
    case None => f
    case Some(ref) =>
      var s := heap[ref];
      var rot := f.mesh.rotation;
      f.(mesh := Transform(FramePosition(s), Vec3(rot.x, Yaw(s, len), rot.z)))
  }

  /** `setRaymarchSettingsRef`: keep the reference itself; nothing is copied or read. */
  function SetSettingsRef(f: Frame, ref: Ref): (r: Frame)
    ensures r.settingsRef == Some(ref)
    ensures r.(settingsRef := f.settingsRef) == f
  {
    f.(settingsRef := Some(ref))
  }

  /** `destroy`: dispose geometry and material once more and detach the mesh. */
  function Destroy(f: Frame): (r: Frame)
    ensures r.geometryDisposals == f.geometryDisposals + 1
    ensures r.materialDisposals == f.materialDisposals + 1
    ensures !r.meshAttached
    ensures r.mesh == f.mesh && r.settingsRef == f.settingsRef
  {
    f.(geometryDisposals := f.geometryDisposals + 1,
       materialDisposals := f.materialDisposals + 1,
       meshAttached := false)
  }

  /**
   * Because the frame keeps a reference, whatever the record holds when
   * `update` runs is what the mesh shows: a write made after wiring, by anyone
   * holding the same reference, is seen by the next update.
   */
  lemma UpdateSeesCurrentSettings(f: Frame, ref: Ref, heap: Heap, s: Settings, len: real)
    requires IsLength(ViewDirection(s), len)
    ensures
      var r := Update(SetSettingsRef(f, ref), heap[ref := s], len);
      && r.mesh.position == Vec3(s.ro.x, s.ro.y, -s.ro.z - s.zoom)
      && r.mesh.rotation.y == Yaw(s, len)
  {
  }

  /** Updating twice against unchanged settings gives the transform of updating once. */
  lemma UpdateIdempotent(f: Frame, heap: Heap, len: real)
    requires CanUpdate(f, heap, len)
    ensures Update(Update(f, heap, len), heap, len) == Update(f, heap, len)
  {
  }

  /**
   * The yaw turns the frame towards the side the shader looks to: positive
   * exactly when the view direction's x and the ray origin's z offset from the
   * target have the same strict sign, negative when the signs differ, and zero
   * when either vanishes (for a view of non-zero length).
   */
  lemma YawSign(s: Settings, len: real)
    requires IsLength(ViewDirection(s), len) && len != 0.0
    ensures var d := ViewDirection(s).x; var side := s.ro.z - s.lookAt.z;
      && (Yaw(s, len) > 0.0 <==> (d > 0.0 && side > 0.0) || (d < 0.0 && side < 0.0))
      && (Yaw(s, len) < 0.0 <==> (d > 0.0 && side < 0.0) || (d < 0.0 && side > 0.0))
  {
    var v := ViewDirection(s);
    var dotR := NormalizedX(v, len);
    NormalizedSign(v, len);
    var sg := Sign(s.ro.z - s.lookAt.z);
    assert Yaw(s, len) == (dotR * sg) * (Pi * 0.5);
  }

  /** The normalised x-component has the sign of the x-component itself. */
  lemma NormalizedSign(v: Vec3, len: real)
    requires IsLength(v, len) && len != 0.0
    ensures NormalizedX(v, len) > 0.0 <==> v.x > 0.0
    ensures NormalizedX(v, len) < 0.0 <==> v.x < 0.0
  {
    var q := NormalizedX(v, len);
    assert q * len == v.x;
  }

  /** A degenerate view (ray origin on the target) leaves the frame unturned. */
  lemma DegenerateViewHasNoYaw(s: Settings)
    requires s.ro == s.lookAt
    ensures IsLength(ViewDirection(s), 0.0)
    ensures Yaw(s, 0.0) == 0.0
  {
  }
}

=== FILE: scroll.dfy ===
/**
 * The `Scroll` singleton: a momentum engine that turns pointer, touch and wheel
 * input into `{x, y}` delta events. Every handler is a pure step from the
 * engine's state to its next state and the events it dispatches, in order.
 */
module Scroll {
  import opened Maybe

  /** A pair of screen coordinates or deltas. */
  datatype Point = Point(x: real, y: real)

  /** Where a pointer event came from: a touch event (`'touches' in event`) or a mouse event. */
  datatype Pointer = TouchInput | MouseInput

  /** The inputs the engine reacts to, one per listener plus the per-frame update. */
  datatype Input =
    | PointerDown(pointer: Pointer, at: Point)
    | PointerMove(pointer: Pointer, at: Point)
    | PointerUp
    | WheelTurn(pixelY: real)
    | Resize
    | Frame(time: real)
    | SetTarget(element: nat)

  /** The dispatched events, by their `type`: touchdown, touchup, mouse, touch and wheel. */
  datatype Event =
    | TouchDown
    | TouchUp
    | Mouse(x: real, y: real)
    | Touch(x: real, y: real)
    | Wheel(x: real, y: real)

  /** The `type` argument of `_applyScrollXY`. */
  datatype ScrollKind = TouchMove | MouseMove | WheelMove

  /**
   * `_lastTouch`, `_useMomentum`, `_touchMomentum`, `_isTouching` and the bound
   * target element (an element is identified by a number).
   */
  datatype State = State(
    lastTouch: Point,
    useMomentum: bool,
    momentum: Point,
    isTouching: bool,
    target: Option<nat>)

  /**
   * The motion constants: `MOMENTUM_CARRY`, and `dampingPow(t)` standing for
   * `Math.pow(MOMENTUM_DAMPING, t)`.
   */
  datatype Motion = Motion(carry: real, dampingPow: real -> real)

  /** A new state and the events dispatched on the way to it. */
  datatype Reaction = Reaction(state: State, events: seq<Event>)

  /** Below this magnitude an axis of momentum dispatches nothing. */
  const MinDelta: real := 0.01

  const Zero: Point := Point(0.0, 0.0)

  /** The field initialisers of the class. */
  const Init: State := State(Zero, false, Zero, false, None)

  function Abs(r: real): real
  {
    if r < 0.0 then -r else r
  }

  /** `_applyScrollXY`: the event a delta of each kind is dispatched as. */
  function ApplyScrollXY(x: real, y: real, kind: ScrollKind): (e: Event)
    ensures e.Mouse? <==> kind == MouseMove
    ensures e.Touch? <==> kind == TouchMove
    ensures e.Wheel? <==> kind == WheelMove
    ensures !e.TouchDown? && !e.TouchUp? && e.x == x && e.y == y
  {
    match kind
    case MouseMove => Mouse(x, y)
    case TouchMove => Touch(x, y)
    case WheelMove => Wheel(x, y)
  }

  /** `_onTouchDown`: start touching, stop momentum, remember where the pointer went down. */
  function OnTouchDown(s: State, at: Point): (r: Reaction)
    ensures r.state.isTouching && !r.state.useMomentum
    ensures r.state.lastTouch == at
    ensures r.state.momentum == s.momentum && r.state.target == s.target
    ensures r.events == [TouchDown]
  {
    Reaction(s.(isTouching := true, useMomentum := false, lastTouch := at), [TouchDown])
  }

  /**
   * `_onTouchMove`: ignored unless touching; otherwise the delta from the last
   * position is carried into the momentum and dispatched raw, as a `touch`
   * event for touch input and a `mouse` event for mouse input.
   */
  function OnTouchMove(s: State, pointer: Pointer, at: Point, carry: real): (r: Reaction)
    ensures !s.isTouching ==> r == Reaction(s, [])
    ensures s.isTouching ==>
      var dx, dy := at.x - s.lastTouch.x, at.y - s.lastTouch.y;
      && r.state.lastTouch == at
      && r.state.momentum == Point(s.momentum.x * carry + dx, s.momentum.y * carry + dy)
      && r.state.isTouching == s.isTouching && r.state.useMomentum == s.useMomentum
      && r.state.target == s.target
      && r.events == [if pointer == TouchInput then Touch(dx, dy) else Mouse(dx, dy)]
  {
    if !s.isTouching then Reaction(s, [])
    else
      var delta := Point(at.x - s.lastTouch.x, at.y - s.lastTouch.y);
      var momentum := Point(s.momentum.x * carry + delta.x, s.momentum.y * carry + delta.y);
      var kind := if pointer == TouchInput then TouchMove else MouseMove;
      Reaction(s.(lastTouch := at, momentum := momentum), [ApplyScrollXY(delta.x, delta.y, kind)])
  }

  /** `_onTouchUp`: stop touching and let the momentum run; the momentum itself is kept. */
  function OnTouchUp(s: State): (r: Reaction)
    ensures !r.state.isTouching && r.state.useMomentum
    ensures r.state.momentum == s.momentum && r.state.lastTouch == s.lastTouch
    ensures r.state.target == s.target
    ensures r.events == [TouchUp]
  {
    Reaction(s.(isTouching := false, useMomentum := true), [TouchUp])
  }

  /** `_onWheel`: stop momentum and dispatch the wheel's normalised vertical delta, negated. */
  function OnWheel(s: State, pixelY: real): (r: Reaction)
    ensures !r.state.useMomentum
    ensures r.state.(useMomentum := s.useMomentum) == s
    ensures r.events == [Wheel(0.0, -pixelY)]
  {
    Reaction(s.(useMomentum := false), [ApplyScrollXY(0.0, -pixelY, WheelMove)])
  }

  /** `_onResize`: only stops momentum. */
  function OnResize(s: State): (r: Reaction)
    ensures !r.state.useMomentum
    ensures r.state.(useMomentum := s.useMomentum) == s
    ensures r.events == []
  {
    Reaction(s.(useMomentum := false), [])
  }

  /**
   * The decay exponent: `time / (1000 / time)` clamped into `[1, 4]`. At time
   * zero JavaScript divides by zero, giving `0 / Infinity`, that is 0.
   */
  function TimeFactor(time: real): (t: real)
    ensures 1.0 <= t <= 4.0
    ensures time == 0.0 || time / (1000.0 / time) < 1.0 ==> t == 1.0
    ensures time != 0.0 && time / (1000.0 / time) > 4.0 ==> t == 4.0
    ensures time != 0.0 && 1.0 <= time / (1000.0 / time) <= 4.0 ==> t == time / (1000.0 / time)
  {
    var raw := if time == 0.0 then 0.0 else time / (1000.0 / time);
    if raw < 1.0 then 1.0 else if raw > 4.0 then 4.0 else raw
  }

  /**
   * The ratio is `time` squared over 1000, so from a frame time of 64 on
   * (where it is 4.096) the exponent is pinned at its ceiling of 4.
   */
  lemma LateFramesClampToFour(time: real)
    requires time >= 64.0
    ensures TimeFactor(time) == 4.0
  {
    assert time / (1000.0 / time) == time * time / 1000.0;
  }

  /** The at most one event an axis value dispatches after decay. */
  function AxisEvent(value: real, onX: bool): seq<Event>
  {
    if Abs(value) < MinDelta then []
    else if onX then [ApplyScrollXY(value, 0.0, TouchMove)]
    else [ApplyScrollXY(0.0, value, TouchMove)]
  }

  /**
   * `update`: nothing happens while momentum is off. Otherwise both axes decay
   * by the damping factor at an exponent in `[1, 4]`, then an x event (with y
   * zero) is dispatched iff the x momentum still has magnitude at least 0.01,
   * followed by a y event (with x zero) iff the y momentum does.
   */
  function Update(s: State, time: real, m: Motion): (r: Reaction)
    ensures !s.useMomentum ==> r == Reaction(s, [])
    ensures s.useMomentum ==>
      var t := TimeFactor(time);
      var f := m.dampingPow(t);
      && 1.0 <= t <= 4.0
      && r.state == s.(momentum := Point(s.momentum.x * f, s.momentum.y * f))
    ensures
      var mx, my := r.state.momentum.x, r.state.momentum.y;
      && (forall e <- r.events :: e.Touch?)
      && (s.useMomentum ==>
        && |r.events| == (if Abs(mx) >= MinDelta then 1 else 0) + (if Abs(my) >= MinDelta then 1 else 0)
        && (Abs(mx) >= MinDelta ==> r.events[0] == Touch(mx, 0.0))
        && (Abs(my) >= MinDelta ==> r.events[|r.events| - 1] == Touch(0.0, my)))
  {
    if !s.useMomentum then Reaction(s, [])
    else
      var f := m.dampingPow(TimeFactor(time));
      var momentum := Point(s.momentum.x * f, s.momentum.y * f);
      Reaction(s.(momentum := momentum), AxisEvent(momentum.x, true) + AxisEvent(momentum.y, false))
  }

  /**
   * `setTargetElement`: binds only the first element it is given. Binding adds
   * the listeners and calls `_onResize`, which stops momentum.
   */
  function SetTargetElement(s: State, element: nat): (r: Reaction)
    ensures s.target.Some? ==> r == Reaction(s, [])
    ensures s.target.None? ==>
      r.state == s.(target := Some(element), useMomentum := false) && r.events == []
  {
    if s.target.Some? then Reaction(s, [])
    else OnResize(s.(target := Some(element)))
  }

  /** One input, routed to its handler. */
  function Step(s: State, input: Input, m: Motion): Reaction
  {
    match input
    case PointerDown(_, at) => OnTouchDown(s, at)
    case PointerMove(pointer, at) => OnTouchMove(s, pointer, at, m.carry)
    case PointerUp => OnTouchUp(s)
    case WheelTurn(pixelY) => OnWheel(s, pixelY)
    case Resize => OnResize(s)
    case Frame(time) => Update(s, time, m)
    case SetTarget(element) => SetTargetElement(s, element)
  }

  /** A sequence of inputs, one after the other; the events are concatenated in order. */
  function Run(s: State, inputs: seq<Input>, m: Motion): Reaction
    decreases |inputs|
  {
    if |inputs| == 0 then Reaction(s, [])
    else
      var first := Step(s, inputs[0], m);
      var rest := Run(first.state, inputs[1..], m);
      Reaction(rest.state, first.events + rest.events)
  }

  /** Momentum never runs while a finger or button is down. */
  predicate Inv(s: State)
  {
    !(s.isTouching && s.useMomentum)
  }

  lemma StepPreservesInv(s: State, input: Input, m: Motion)
    requires Inv(s)
    ensures Inv(Step(s, input, m).state)
  {
  }

  /** From any state where it holds, `Init` included, no sequence of inputs ever has momentum running during a touch. */
  lemma {:induction false} RunPreservesInv(s: State, inputs: seq<Input>, m: Motion)
    requires Inv(s)
    ensures Inv(Run(s, inputs, m).state)
    decreases |inputs|
  {
    if |inputs| > 0 {
      StepPreservesInv(s, inputs[0], m);
      RunPreservesInv(Step(s, inputs[0], m).state, inputs[1..], m);
    }
  }

  /** A drag: the pointer moving through `points`, one move per point. */
  function Drag(pointer: Pointer, points: seq<Point>): (inputs: seq<Input>)
    ensures |inputs| == |points|
    ensures forall i :: 0 <= i < |points| ==> inputs[i] == PointerMove(pointer, points[i])
  {
    seq(|points|, i requires 0 <= i < |points| => PointerMove(pointer, points[i]))
  }

  /** The sum of the x and y deltas carried by a sequence of events. */
  function SumX(events: seq<Event>): real
  {
    if |events| == 0 then 0.0
    else (if events[0].Mouse? || events[0].Touch? then events[0].x else 0.0) + SumX(events[1..])
  }

  function SumY(events: seq<Event>): real
  {
    if |events| == 0 then 0.0
    else (if events[0].Mouse? || events[0].Touch? then events[0].y else 0.0) + SumY(events[1..])
  }

  lemma {:induction false} SumSplit(a: seq<Event>, b: seq<Event>)
    ensures SumX(a + b) == SumX(a) + SumX(b)
    ensures SumY(a + b) == SumY(a) + SumY(b)
    decreases |a|
  {
    if |a| > 0 {
      assert (a + b)[0] == a[0];
      assert (a + b)[1..] == a[1..] + b;
      SumSplit(a[1..], b);
    } else {
      assert a + b == b;
    }
  }

  /**
   * During a drag the dispatched raw deltas add up to the pointer's total
   * displacement, one event per move, and the last position is the last point.
   */
  lemma {:induction false} DragTelescopes(s: State, pointer: Pointer, points: seq<Point>, m: Motion)
    requires s.isTouching && |points| > 0
    ensures
      var r := Run(s, Drag(pointer, points), m);
      && r.state.lastTouch == points[|points| - 1]
      && |r.events| == |points|
      && SumX(r.events) == points[|points| - 1].x - s.lastTouch.x
      && SumY(r.events) == points[|points| - 1].y - s.lastTouch.y
      && r.state.isTouching && r.state.useMomentum == s.useMomentum
    decreases |points|
  {
    var inputs := Drag(pointer, points);
    var first := Step(s, inputs[0], m);
    assert inputs[0] == PointerMove(pointer, points[0]);
    var rest := Run(first.state, inputs[1..], m);
    SumSplit(first.events, rest.events);
    if |points| > 1 {
      assert inputs[1..] == Drag(pointer, points[1..]);
      DragTelescopes(first.state, pointer, points[1..], m);
    } else {
      assert inputs[1..] == [];
    }
  }

  /** `c` to the power `n`. */
  function Pow(c: real, n: nat): real
  {
    if n == 0 then 1.0 else c * Pow(c, n - 1)
  }

  /**
   * The closed form of carry accumulation on one axis: the i-th of `n` move
   * deltas survives with weight `c^(n-1-i)`, the first delta measured from `prev`.
   */
  function CarriedDeltas(c: real, prev: real, xs: seq<real>): real
    decreases |xs|
  {
    if |xs| == 0 then 0.0
    else (xs[0] - prev) * Pow(c, |xs[1..]|) + CarriedDeltas(c, xs[0], xs[1..])
  }

  function Xs(points: seq<Point>): (xs: seq<real>)
    ensures |xs| == |points| && forall i :: 0 <= i < |points| ==> xs[i] == points[i].x
  {
    seq(|points|, i requires 0 <= i < |points| => points[i].x)
  }

  function Ys(points: seq<Point>): (ys: seq<real>)
    ensures |ys| == |points| && forall i :: 0 <= i < |points| ==> ys[i] == points[i].y
  {
    seq(|points|, i requires 0 <= i < |points| => points[i].y)
  }

  /**
   * One carry step in closed form: if `m1 = m0 c + d` is carried over the
   * remaining `p`-weighted moves, the result is `m0` carried over all of them
   * plus `d` weighted like the first move.
   */
  lemma CarryAxis(m0: real, c: real, d: real, p: real, rest: real, m1: real, after: real, pn: real, full: real)
    requires m1 == m0 * c + d && after == m1 * p + rest
    requires pn == c * p && full == d * p + rest
    ensures after == m0 * pn + full
  {
    calc {
      after;
      (m0 * c + d) * p + rest;
      (m0 * c) * p + d * p + rest;
      m0 * (c * p) + d * p + rest;
    }
  }

  lemma PowFirst(c: real, xs: seq<real>)
    requires |xs| > 0
    ensures Pow(c, |xs|) == c * Pow(c, |xs[1..]|)
  {
  }

  lemma CarriedFirst(c: real, prev: real, xs: seq<real>)
    requires |xs| > 0
    ensures CarriedDeltas(c, prev, xs) == (xs[0] - prev) * Pow(c, |xs[1..]|) + CarriedDeltas(c, xs[0], xs[1..])
  {
  }

  /** Carry accumulation on one axis, move by move, as `_onTouchMove` performs it. */
  function FoldCarry(c: real, m0: real, prev: real, xs: seq<real>): real
    decreases |xs|
  {
    if |xs| == 0 then m0
    else FoldCarry(c, m0 * c + (xs[0] - prev), xs[0], xs[1..])
  }

  lemma FoldStep(c: real, m0: real, prev: real, xs: seq<real>, m1: real)
    requires |xs| > 0 && m1 == m0 * c + (xs[0] - prev)
    ensures FoldCarry(c, m0, prev, xs) == FoldCarry(c, m1, xs[0], xs[1..])
  {
  }

  /** A drag's momentum is the move-by-move carry fold on each axis. */
  lemma {:induction false} DragFolds(s: State, pointer: Pointer, points: seq<Point>, m: Motion)
    requires s.isTouching
    ensures
      var r := Run(s, Drag(pointer, points), m);
      r.state.momentum == Point(
        FoldCarry(m.carry, s.momentum.x, s.lastTouch.x, Xs(points)),
        FoldCarry(m.carry, s.momentum.y, s.lastTouch.y, Ys(points)))
    decreases |points|
  {
    if |points| > 0 {
      var first := OnTouchMove(s, pointer, points[0], m.carry).state;
      DragFirst(s, pointer, points, m);
      DragFolds(first, pointer, points[1..], m);
      AxesTail(points);
      var c, xs, ys := m.carry, Xs(points), Ys(points);
      assert first.momentum.x == s.momentum.x * c + (xs[0] - s.lastTouch.x);
      assert first.lastTouch.x == xs[0];
      assert first.momentum.y == s.momentum.y * c + (ys[0] - s.lastTouch.y);
      assert first.lastTouch.y == ys[0];
      FoldStep(c, s.momentum.x, s.lastTouch.x, xs, first.momentum.x);
      FoldStep(c, s.momentum.y, s.lastTouch.y, ys, first.momentum.y);
    }
  }

  /**
   * The move-by-move fold agrees with the closed form: after `n` moves the
   * momentum is the momentum before times `carry^n` plus every raw delta
   * weighted by the carry to the number of moves that followed it.
   */
  lemma {:induction false} FoldCarryClosedForm(c: real, m0: real, prev: real, xs: seq<real>)
    ensures FoldCarry(c, m0, prev, xs) == m0 * Pow(c, |xs|) + CarriedDeltas(c, prev, xs)
    decreases |xs|
  {
    if |xs| > 0 {
      var m1 := m0 * c + (xs[0] - prev);
      FoldCarryClosedForm(c, m1, xs[0], xs[1..]);
      ClosedFormStep(c, m0, prev, xs, m1);
    }
  }

  /** The inductive step of the closed form: one move in front of a drag already in closed form. */
  lemma ClosedFormStep(c: real, m0: real, prev: real, xs: seq<real>, m1: real)
    requires |xs| > 0 && m1 == m0 * c + (xs[0] - prev)
    requires FoldCarry(c, m1, xs[0], xs[1..]) == m1 * Pow(c, |xs[1..]|) + CarriedDeltas(c, xs[0], xs[1..])
    ensures FoldCarry(c, m0, prev, xs) == m0 * Pow(c, |xs|) + CarriedDeltas(c, prev, xs)
  {
    FoldStep(c, m0, prev, xs, m1);
    PowFirst(c, xs);
    CarriedFirst(c, prev, xs);
    CarryAxis(c := c, m0 := m0, d := xs[0] - prev, p := Pow(c, |xs[1..]|),
      rest := CarriedDeltas(c, xs[0], xs[1..]), m1 := m1, after := FoldCarry(c, m1, xs[0], xs[1..]),
      pn := Pow(c, |xs|), full := CarriedDeltas(c, prev, xs));
  }

  /** A drag is its first move followed by the drag through the remaining points. */
  lemma DragFirst(s: State, pointer: Pointer, points: seq<Point>, m: Motion)
    requires |points| > 0
    ensures
      var first := OnTouchMove(s, pointer, points[0], m.carry);
      var rest := Run(first.state, Drag(pointer, points[1..]), m);
      Run(s, Drag(pointer, points), m) == Reaction(rest.state, first.events + rest.events)
  {
    var inputs := Drag(pointer, points);
    assert inputs[0] == PointerMove(pointer, points[0]);
    assert inputs[1..] == Drag(pointer, points[1..]);
  }

  lemma AxesTail(points: seq<Point>)
    requires |points| > 0
    ensures Xs(points)[0] == points[0].x && Xs(points)[1..] == Xs(points[1..])
    ensures Ys(points)[0] == points[0].y && Ys(points)[1..] == Ys(points[1..])
  {
    assert Xs(points)[1..] == Xs(points[1..]);
    assert Ys(points)[1..] == Ys(points[1..]);
  }

  /** Two moves with carry 0.9 and deltas 10 and 5 leave momentum 10 * 0.9 + 5 = 14. */
  lemma CarryExample(pointer: Pointer, m: Motion)
    requires m.carry == 0.9
    ensures
      var down := OnTouchDown(Init, Zero).state;
      var r := Run(down, Drag(pointer, [Point(10.0, 0.0), Point(15.0, 0.0)]), m);
      r.state.momentum == Point(14.0, 0.0)
  {
    var down := OnTouchDown(Init, Zero).state;
    var inputs := Drag(pointer, [Point(10.0, 0.0), Point(15.0, 0.0)]);
    assert inputs == [PointerMove(pointer, Point(10.0, 0.0)), PointerMove(pointer, Point(15.0, 0.0))];
    var first := OnTouchMove(down, pointer, Point(10.0, 0.0), 0.9).state;
    assert first.momentum == Point(10.0, 0.0);
    var second := OnTouchMove(first, pointer, Point(15.0, 0.0), 0.9).state;
    assert second.momentum == Point(14.0, 0.0);
    assert inputs[1..][1..] == [];
    assert Run(second, inputs[1..][1..], m).state == second;
    assert Step(first, inputs[1..][0], m).state == second;
    assert Run(first, inputs[1..], m).state == second;
    assert Step(down, inputs[0], m).state == first;
  }

  /**
   * With a damping factor in `[0, 1]` for every exponent in `[1, 4]`, a frame
   * never makes either axis of momentum larger, so an axis that has fallen
   * below 0.01 stays silent on every later frame.
   */
  lemma DecayNeverGrows(s: State, time: real, m: Motion)
    requires forall t :: 1.0 <= t <= 4.0 ==> 0.0 <= m.dampingPow(t) <= 1.0
    ensures Abs(Update(s, time, m).state.momentum.x) <= Abs(s.momentum.x)
    ensures Abs(Update(s, time, m).state.momentum.y) <= Abs(s.momentum.y)
  {
    if s.useMomentum {
      var f := m.dampingPow(TimeFactor(time));
      var r := Update(s, time, m);
      assert r.state.momentum == Point(s.momentum.x * f, s.momentum.y * f);
      ShrinkBy(s.momentum.x, f);
      ShrinkBy(s.momentum.y, f);
    }
  }

  lemma ShrinkBy(a: real, f: real)
    requires 0.0 <= f <= 1.0
    ensures Abs(a * f) <= Abs(a)
  {
    if a >= 0.0 {
      assert a * f <= a * 1.0;
    } else {
      assert (-a) * f <= (-a) * 1.0;
    }
  }

  /** Frames alone, under such damping, never increase the momentum on either axis. */
  lemma {:induction false} FramesNeverGrow(s: State, times: seq<real>, m: Motion)
    requires forall t :: 1.0 <= t <= 4.0 ==> 0.0 <= m.dampingPow(t) <= 1.0
    ensures
      var r := Run(s, seq(|times|, i requires 0 <= i < |times| => Frame(times[i])), m);
      && Abs(r.state.momentum.x) <= Abs(s.momentum.x)
      && Abs(r.state.momentum.y) <= Abs(s.momentum.y)
    decreases |times|
  {
    var inputs := seq(|times|, i requires 0 <= i < |times| => Frame(times[i]));
    if |times| > 0 {
      DecayNeverGrows(s, times[0], m);
      var next := Update(s, times[0], m).state;
      assert inputs[1..] == seq(|times[1..]|, i requires 0 <= i < |times[1..]| => Frame(times[1..][i]));
      FramesNeverGrow(next, times[1..], m);
    }
  }

  /** Only the first target element is ever bound; later calls change nothing. */
  lemma SetTargetOnce(s: State, first: nat, second: nat)
    ensures
      var bound := SetTargetElement(s, first).state;
      SetTargetElement(bound, second) == Reaction(bound, [])
  {
  }
}

=== FILE: settings.dfy ===
/**
 * The shared `RaymarchSettings` record and the heap it lives in. The scene owns
 * one record; the frame and the computed screen hold a reference to it, never a
 * copy, so a reference into `Heap` stands for the object identity of the source.
 */
module RaymarchSettings {
  import opened Geometry

  /** The identity of one settings object. */
  type Ref = nat

  /** ro: ray origin, lookAt: target, lightPos, zoom, and the two tracked spheres. */
  datatype Settings = Settings(
    ro: Vec3,
    lookAt: Vec3,
    lightPos: Vec3,
    zoom: real,
    sphere1: Vec3,
    sphere2: Vec3)

  /** Every settings object alive, by identity. */
  type Heap = map<Ref, Settings>

  /** The look direction is defined and the zoom is not negative. */
  predicate Valid(s: Settings)
  {
    s.ro != s.lookAt && s.zoom >= 0.0
  }

  /** The view direction the shader's implicit camera looks along (before normalising). */
  function ViewDirection(s: Settings): Vec3
  {
    Sub(s.lookAt, s.ro)
  }
}

=== FILE: visualiser_scene.dfy ===
/**
 * `VisualiserScene`: owns six children and the one `RaymarchSettings` record,
 * hands the record by reference to the frame and the computed screen, places
 * the external camera from the ray origin, and fans `update` and `destroy` out
 * to the children in a fixed order. Calls on children whose code is not part
 * of this model (floor, computed screen, spheres, light, the base scene) are
 * recorded in a trace; the screen frame's own behaviour is applied.
 */
module VisualiserScene {
  import opened Geometry
  import opened Maybe
  import opened RaymarchSettings
  import ScreenFrame

  /** The six children, named after the scene's fields. */
  datatype Child = Floor | ScreenFrame3D | ScreenComputed | RaySphere1 | RaySphere2 | RayLight

  /** One call the scene makes, on itself or on a child. */
  datatype Call =
    | BaseUpdate
    | Add(child: Child)
    | Remove(child: Child)
    | UpdateChild(child: Child)
    | DestroyChild(child: Child)
    | SetElPosition(child: Child, position: Vec3)
    | SetSettingsRef(child: Child, ref: Ref)

  /**
   * The scene's child list, the identity of its settings record, every
   * settings object alive, the screen frame, the computed screen's settings
   * reference, and the external camera's position.
   */
  datatype Scene = Scene(
    children: seq<Child>,
    settingsRef: Ref,
    heap: Heap,
    frame: ScreenFrame.Frame,
    computedRef: Option<Ref>,
    camera: Vec3)

  /** A scene and the calls made reaching it, in order. */
  datatype Traced = Traced(scene: Scene, calls: seq<Call>)

  /** The children in the order the scene declares and adds them. */
  const Children: seq<Child> := [Floor, ScreenFrame3D, ScreenComputed, RaySphere1, RaySphere2, RayLight]

  /** The `_raymarchSettings` initialiser. */
  function InitialSettings(): (s: Settings)
    ensures Valid(s)
    ensures s.ro.z != s.lookAt.z
  {
    Settings(
      Vec3(-8.0, 10.0, -8.0),
      Vec3(0.0, 0.0, 0.0),
      Vec3(0.0, 12.0, -5.0),
      3.0,
      Vec3(1.0, 1.4, 4.0),
      Vec3(-1.0, 1.0, 4.0))
  }

  /** No element appears twice: a node has at most one place under its parent. */
  ghost predicate NoDup<T(!new)>(xs: seq<T>)
  {
    forall x :: multiset(xs)[x] <= 1
  }

  /** Where a child sits in `Children`: every child the scene declares is listed there. */
  function IndexOf(c: Child): (k: nat)
    ensures k < |Children| && Children[k] == c
  {
    match c
    case Floor => 0
    case ScreenFrame3D => 1
    case ScreenComputed => 2
    case RaySphere1 => 3
    case RaySphere2 => 4
    case RayLight => 5
  }

  /** The position of the first occurrence of `c`. */
  function FirstIndex(cs: seq<Child>, c: Child): (i: nat)
    requires c in cs
    ensures i < |cs| && cs[i] == c && c !in cs[..i]
    decreases |cs|
  {
    if cs[0] == c then 0
    else
      assert cs == [cs[0]] + cs[1..];
      var j := FirstIndex(cs[1..], c);
      assert cs[..j + 1] == [cs[0]] + cs[1..][..j];
      j + 1
  }

  /** three.js `remove`: splice out the first occurrence, if any, keeping the rest in order. */
  function RemoveChild(cs: seq<Child>, c: Child): (r: seq<Child>)
    ensures multiset(r) == multiset(cs) - multiset{c}
    ensures c !in cs ==> r == cs
    decreases |cs|
  {
    if |cs| == 0 then []
    else if cs[0] == c then
      assert cs == [c] + cs[1..];
      cs[1..]
    else
      assert cs == [cs[0]] + cs[1..];
      [cs[0]] + RemoveChild(cs[1..], c)
  }

  /** `remove` cuts out exactly the first occurrence: what comes before and after it keeps its order. */
  lemma {:induction false} RemoveSplices(cs: seq<Child>, c: Child)
    requires c in cs
    ensures RemoveChild(cs, c) == cs[..FirstIndex(cs, c)] + cs[FirstIndex(cs, c) + 1..]
    decreases |cs|
  {
    if cs[0] == c {
      assert cs[..0] + cs[0 + 1..] == cs[1..];
    } else {
      assert cs == [cs[0]] + cs[1..];
      assert c in cs[1..];
      RemoveSplices(cs[1..], c);
      SpliceStep(cs, c, RemoveChild(cs[1..], c));
    }
  }

  /** Splicing behind a different first child is splicing one position further along. */
  lemma SpliceStep(cs: seq<Child>, c: Child, rest: seq<Child>)
    requires |cs| > 0 && cs[0] != c && c in cs
    requires c in cs[1..] ==> rest == cs[1..][..FirstIndex(cs[1..], c)] + cs[1..][FirstIndex(cs[1..], c) + 1..]
    ensures [cs[0]] + rest == cs[..FirstIndex(cs, c)] + cs[FirstIndex(cs, c) + 1..]
  {
    assert cs == [cs[0]] + cs[1..];
    assert c in cs[1..];
    var j := FirstIndex(cs[1..], c);
    assert FirstIndex(cs, c) == j + 1;
    assert cs[..j + 1] == [cs[0]] + cs[1..][..j];
    assert cs[j + 1 + 1..] == cs[1..][j + 1..];
  }

  /** Removing from a list without repeats leaves one without repeats, and without the removed child. */
  lemma RemoveKeepsDistinct(cs: seq<Child>, c: Child)
    requires NoDup(cs)
    ensures NoDup(RemoveChild(cs, c)) && c !in RemoveChild(cs, c)
  {
    var r := RemoveChild(cs, c);
    assert multiset(r)[c] == 0;
  }

  /** Remove each of `ds` in turn. */
  function RemoveEach(cs: seq<Child>, ds: seq<Child>): (r: seq<Child>)
    ensures multiset(r) <= multiset(cs)
    ensures NoDup(cs) ==> forall x :: x in ds ==> x !in r
    decreases |ds|
  {
    if |ds| == 0 then cs
    else
      var next := RemoveChild(cs, ds[0]);
      var r := RemoveEach(next, ds[1..]);
      assert NoDup(cs) ==> forall x :: x in ds ==> x !in r by {
        if NoDup(cs) {
          RemovedForGood(cs, ds, next, r);
        }
      }
      r
  }

  /** The step of `RemoveEach`: the first child removed stays removed, and so do the others. */
  lemma RemovedForGood(cs: seq<Child>, ds: seq<Child>, next: seq<Child>, r: seq<Child>)
    requires NoDup(cs) && |ds| > 0 && next == RemoveChild(cs, ds[0])
    requires multiset(r) <= multiset(next)
    requires NoDup(next) ==> forall x :: x in ds[1..] ==> x !in r
    ensures forall x :: x in ds ==> x !in r
  {
    RemoveKeepsDistinct(cs, ds[0]);
    assert ds == [ds[0]] + ds[1..];
    assert multiset(r)[ds[0]] <= multiset(next)[ds[0]];
  }

  /** three.js `add`: detach from the current parent (here, this scene) and append. */
  function AddChild(cs: seq<Child>, c: Child): (r: seq<Child>)
    ensures c !in cs ==> r == cs + [c]
    ensures |r| > 0 && r[|r| - 1] == c && r[..|r| - 1] == RemoveChild(cs, c)
    ensures multiset(r) == (multiset(cs) - multiset{c}) + multiset{c}
  {
    RemoveChild(cs, c) + [c]
  }

  /** Add each of `adds` in turn; distinct new children end up appended in order. */
  function AddEach(cs: seq<Child>, adds: seq<Child>): (r: seq<Child>)
    ensures NoDup(cs + adds) ==> r == cs + adds
    decreases |adds|
  {
    if |adds| == 0 then
      assert cs + adds == cs;
      cs
    else
      var next := AddChild(cs, adds[0]);
      assert NoDup(cs + adds) ==> next == cs + [adds[0]] && next + adds[1..] == cs + adds by {
        assert cs + adds == (cs + [adds[0]]) + adds[1..];
        if NoDup(cs + adds) {
          assert multiset(cs + adds)[adds[0]] == multiset(cs)[adds[0]] + multiset(adds)[adds[0]];
          assert adds[0] in adds;
        }
      }
      AddEach(next, adds[1..])
  }

  /** A list holding none of the six children is empty. */
  lemma NoneLeft(cs: seq<Child>)
    requires forall x :: x in Children ==> x !in cs
    ensures cs == []
  {
    AllListed();
    forall x
      ensures multiset(cs)[x] == 0
    {
      assert x in Children;
    }
    assert multiset(cs) == multiset{};
    assert |multiset(cs)| == |cs|;
  }

  /** Every child is one of the six. */
  lemma AllListed()
    ensures forall c: Child :: c in Children
  {
    forall c: Child
      ensures c in Children
    {
      var k := IndexOf(c);
    }
  }

  /** The six children are distinct. */
  lemma ChildrenDistinct()
    ensures NoDup(Children)
  {
    forall x
      ensures multiset(Children)[x] <= 1
    {
      assert multiset(Children) == multiset{Floor, ScreenFrame3D, ScreenComputed, RaySphere1, RaySphere2, RayLight};
    }
  }

  /** Adding the six children to an empty scene lists them in the order added. */
  lemma AddedInOrder()
    ensures AddEach([], Children) == Children
  {
    ChildrenDistinct();
    assert [] + Children == Children;
  }

  /** One `add` per child, in the children's order. */
  function AddCalls(cs: seq<Child>): (r: seq<Call>)
    ensures |r| == |cs| && forall k :: 0 <= k < |cs| ==> r[k] == Add(cs[k])
  {
    if |cs| == 0 then [] else [Add(cs[0])] + AddCalls(cs[1..])
  }

  /** One `update` per child, in the children's order. */
  function UpdateCalls(cs: seq<Child>): (r: seq<Call>)
    ensures |r| == |cs| && forall k :: 0 <= k < |cs| ==> r[k] == UpdateChild(cs[k])
  {
    if |cs| == 0 then [] else [UpdateChild(cs[0])] + UpdateCalls(cs[1..])
  }

  /**
   * The constructor: the six children are added in field order (which, by
   * `AddedInOrder`, lists them as `Children`), the light and
   * spheres get their positions, and both the computed screen and the frame
   * receive the reference of the one new settings record; the camera is left
   * where it was until it is placed.
   */
  function New(heap: Heap, ref: Ref, camera: Vec3): (r: Traced)
    requires ref !in heap
    ensures r.scene.children == Children
    ensures r.scene.settingsRef == ref && r.scene.heap == heap[ref := InitialSettings()]
    ensures r.scene.frame.settingsRef == Some(ref) && r.scene.computedRef == Some(ref)
    ensures r.scene.frame == ScreenFrame.SetSettingsRef(ScreenFrame.New(), ref)
    ensures r.scene.camera == camera
    ensures |r.calls| == 11 && forall k :: 0 <= k < 6 ==> r.calls[k] == Add(Children[k])
    ensures r.calls[6..] == [
      SetElPosition(RayLight, InitialSettings().lightPos),
      SetElPosition(RaySphere1, InitialSettings().sphere1),
      SetElPosition(RaySphere2, InitialSettings().sphere2),
      SetSettingsRef(ScreenComputed, ref),
      SetSettingsRef(ScreenFrame3D, ref)]
  {
    var s := InitialSettings();
    var children := Children;
    var frame := ScreenFrame.SetSettingsRef(ScreenFrame.New(), ref);
    var calls := AddCalls(Children) + [
      SetElPosition(RayLight, s.lightPos),
      SetElPosition(RaySphere1, s.sphere1),
      SetElPosition(RaySphere2, s.sphere2),
      SetSettingsRef(ScreenComputed, ref),
      SetSettingsRef(ScreenFrame3D, ref)];
    Traced(Scene(children, ref, heap[ref := s], frame, Some(ref), camera), calls)
  }

  /** The scene's settings record is alive. */
  predicate Wired(sc: Scene)
  {
    sc.settingsRef in sc.heap
  }

  /** `_moveCamera`: put the camera at the ray origin mirrored in z. */
  function MoveCamera(sc: Scene): (r: Scene)
    requires Wired(sc)
    ensures var ro := sc.heap[sc.settingsRef].ro;
      r.camera == Vec3(ro.x, ro.y, -ro.z)
    ensures r.(camera := sc.camera) == sc
    ensures r.children == sc.children && r.heap == sc.heap && r.frame == sc.frame
  {
    var ro := sc.heap[sc.settingsRef].ro;
    sc.(camera := Vec3(ro.x, ro.y, -ro.z))
  }

  /**
   * `update`: the base scene first, then each child once, in the order of
   * `Children`, then `setElPosition(sphere1)` last, with the current tracked
   * value. The scene writes no settings, does not move the camera and keeps
   * its children; only the frame's transform changes.
   */
  function Update(sc: Scene, len: real): (r: Traced)
    requires Wired(sc) && ScreenFrame.CanUpdate(sc.frame, sc.heap, len)
    ensures |r.calls| == 8 && r.calls[0] == BaseUpdate
    ensures forall k :: 0 <= k < 6 ==> r.calls[k + 1] == UpdateChild(Children[k])
    ensures r.calls[7] == SetElPosition(RaySphere1, sc.heap[sc.settingsRef].sphere1)
    ensures r.scene == sc.(frame := ScreenFrame.Update(sc.frame, sc.heap, len))
    ensures r.scene.heap == sc.heap && r.scene.camera == sc.camera
    ensures r.scene.children == sc.children && r.scene.computedRef == sc.computedRef
    ensures r.scene.settingsRef == sc.settingsRef
  {
    var calls := [BaseUpdate] + UpdateCalls(Children)
      + [SetElPosition(RaySphere1, sc.heap[sc.settingsRef].sphere1)];
    Traced(sc.(frame := ScreenFrame.Update(sc.frame, sc.heap, len)), calls)
  }

  /** A scene built by `New` updates its children in exactly the order it added them. */
  lemma UpdateFollowsConstruction(heap: Heap, ref: Ref, camera: Vec3, len: real)
    requires ref !in heap
    requires IsLength(ViewDirection(InitialSettings()), len)
    ensures
      var built := New(heap, ref, camera);
      var updated := Update(built.scene, len);
      forall k :: 0 <= k < |built.scene.children| ==>
        && built.calls[k] == Add(built.scene.children[k])
        && updated.calls[k + 1] == UpdateChild(built.scene.children[k])
  {
  }

  /** The calls `destroy` makes for `cs`: destroy each child, then remove it. */
  function DestroyCalls(cs: seq<Child>): (r: seq<Call>)
    ensures |r| == 2 * |cs|
  {
    if |cs| == 0 then [] else [DestroyChild(cs[0]), Remove(cs[0])] + DestroyCalls(cs[1..])
  }

  /** The `k`-th child is destroyed by call `2k` and removed by the call right after. */
  lemma {:induction false} DestroyCallsAt(cs: seq<Child>, k: nat)
    requires k < |cs|
    ensures DestroyCalls(cs)[2 * k] == DestroyChild(cs[k])
    ensures DestroyCalls(cs)[2 * k + 1] == Remove(cs[k])
  {
    if k > 0 {
      DestroyCallsAt(cs[1..], k - 1);
      assert DestroyCalls(cs)[2 * k] == DestroyCalls(cs[1..])[2 * (k - 1)];
      assert DestroyCalls(cs)[2 * k + 1] == DestroyCalls(cs[1..])[2 * (k - 1) + 1];
    }
  }

  /**
   * `destroy`: each child is destroyed and then removed, one child at a time.
   * Afterwards none of the six is a child of the scene, and the frame has
   * disposed its geometry and material once more and detached its mesh.
   */
  function Destroy(sc: Scene): (r: Traced)
    ensures r.calls == DestroyCalls(Children)
    ensures NoDup(sc.children) ==> r.scene.children == []
    ensures r.scene.frame == ScreenFrame.Destroy(sc.frame)
    ensures r.scene.heap == sc.heap && r.scene.camera == sc.camera
    ensures r.scene.settingsRef == sc.settingsRef && r.scene.computedRef == sc.computedRef
    ensures r.scene == sc.(children := r.scene.children, frame := ScreenFrame.Destroy(sc.frame))
  {
    var children := RemoveEach(sc.children, Children);
    assert NoDup(sc.children) ==> children == [] by {
      if NoDup(sc.children) {
        NoneLeft(children);
      }
    }
    Traced(sc.(children := children, frame := ScreenFrame.Destroy(sc.frame)), DestroyCalls(Children))
  }

  /** A child not in the list gets no destroy or remove call. */
  lemma {:induction false} NotCalledFor(c: Child, cs: seq<Child>)
    requires c !in cs
    ensures DestroyChild(c) !in DestroyCalls(cs) && Remove(c) !in DestroyCalls(cs)
  {
    if |cs| > 0 {
      assert c !in cs[1..] by {
        assert cs == [cs[0]] + cs[1..];
      }
      NotCalledFor(c, cs[1..]);
    }
  }

  /** Over distinct children, no destroy or remove call is repeated. */
  lemma {:induction false} DestroyCallsOnce(cs: seq<Child>)
    requires NoDup(cs)
    ensures NoDup(DestroyCalls(cs))
  {
    if |cs| > 0 {
      var tail := cs[1..];
      var rest := DestroyCalls(tail);
      assert cs == [cs[0]] + tail;
      assert multiset(cs) == multiset{cs[0]} + multiset(tail);
      forall x
        ensures multiset(tail)[x] <= 1
      {
        assert multiset(cs)[x] <= 1;
      }
      assert multiset(cs)[cs[0]] <= 1;
      DestroyCallsOnce(tail);
      NotCalledFor(cs[0], tail);
      assert DestroyCalls(cs) == [DestroyChild(cs[0]), Remove(cs[0])] + rest;
      assert multiset(DestroyCalls(cs)) == multiset{DestroyChild(cs[0]), Remove(cs[0])} + multiset(rest);
    }
  }

  /** `destroy` makes no call twice: each child is destroyed at most once and removed at most once. */
  lemma DestroyNoRepeat(sc: Scene)
    ensures NoDup(Destroy(sc).calls)
  {
    ChildrenDistinct();
    DestroyCallsOnce(Children);
  }

  /** `destroy` reaches every child: it destroys it, and removes it right after. */
  lemma DestroyThenRemove(sc: Scene, c: Child)
    ensures var calls := Destroy(sc).calls;
      exists i :: 0 <= i < |calls| - 1 && calls[i] == DestroyChild(c) && calls[i + 1] == Remove(c)
  {
    var k := IndexOf(c);
    var calls := Destroy(sc).calls;
    DestroyCallsAt(Children, k);
    assert calls[2 * k] == DestroyChild(c) && calls[2 * k + 1] == Remove(c);
  }

  /**
   * The frame and the computed screen share the scene's settings record:
   * after construction, any later value of that record, whoever writes it,
   * is what the frame's next update reads.
   */
  lemma SharedSettingsSeen(heap: Heap, ref: Ref, camera: Vec3, later: Settings, len: real)
    requires ref !in heap
    requires IsLength(ViewDirection(later), len)
    ensures
      var sc := New(heap, ref, camera).scene;
      var written := sc.(heap := sc.heap[ref := later]);
      var frame := Update(written, len).scene.frame;
      && sc.frame.settingsRef == sc.computedRef == Some(sc.settingsRef)
      && frame.mesh.position == ScreenFrame.FramePosition(later)
      && frame.mesh.rotation.y == ScreenFrame.Yaw(later, len)
  {
  }

  /**
   * Once the camera has been placed and the scene updated, the frame sits on
   * the camera's x and y, exactly `zoom` further along -z, and its yaw is
   * within a quarter turn either way.
   */
  lemma FrameInFrontOfCamera(sc: Scene, len: real)
    requires Wired(sc) && sc.frame.settingsRef == Some(sc.settingsRef)
    requires ScreenFrame.CanUpdate(sc.frame, sc.heap, len)
    ensures
      var placed := MoveCamera(sc);
      var updated := Update(placed, len).scene;
      var zoom := sc.heap[sc.settingsRef].zoom;
      && updated.frame.mesh.position == Vec3(updated.camera.x, updated.camera.y, updated.camera.z - zoom)
      && -Pi / 2.0 <= updated.frame.mesh.rotation.y <= Pi / 2.0
  {
  }

  /**
   * The whole lifecycle: construct, place the camera, update once, destroy.
   * The camera ends at (-8, 10, 8); the frame was placed at (-8, 10, 5);
   * every GPU resource of the frame is released exactly once, its mesh is
   * detached, and no child is left in the scene.
   */
  lemma Lifecycle(heap: Heap, ref: Ref, camera: Vec3, len: real)
    requires ref !in heap
    requires IsLength(ViewDirection(InitialSettings()), len)
    ensures
      var built := New(heap, ref, camera).scene;
      var placed := MoveCamera(built);
      var updated := Update(placed, len).scene;
      var gone := Destroy(updated).scene;
      && placed.camera == Vec3(-8.0, 10.0, 8.0)
      && updated.frame.mesh.position == Vec3(-8.0, 10.0, 5.0)
      && gone.frame.geometryDisposals == 1 && gone.frame.materialDisposals == 1
      && !gone.frame.meshAttached
      && gone.children == []
  {
    var built := New(heap, ref, camera).scene;
    var placed := MoveCamera(built);
    var updated := Update(placed, len).scene;
    assert updated.children == Children;
    ChildrenDistinct();
  }
}
